=== FILE: README.md ===
# Bakery order table

A model of the order-table logic of the bakery order tracker
(`src/BakeryManagementSystem.java`). The program keeps a workbook with a sheet
called "Orders". Row 0 of that sheet is a header of column names: Order ID,
Customer Name, Items, Quantity, Price, Status. Every later row is one order. The
operator can add an order, look one up by its numeric Order ID, mark it completed
or mark it cancelled.

The model has three modules:

- `Cells` (`cells.dfy`): a cell is a tagged value. It is `Num`, `Str`, `Bool`,
  `Blank`, or `Other` for formula and error cells. `CellText` renders a cell as
  the details listing does.
- `OrderTable` (`order_table.dfy`): the sheet's rows as a value `seq<Row>`. The
  read-only operations are functions here: column lookup, Order ID lookup and the
  details scan. The status write of complete/cancel is the function `WithStatus`.
  The lemmas cover key uniqueness, idempotence and what an update touches.
- `Bakery` (`bakery.dfy`): the workbook and its sheet as classes that are updated
  in place. `Workbook.CreateExcelFile` builds the header row in a loop.
  `Workbook.AddOrder` appends a row. `Sheet.SetStatus` is the row-scanning loop
  that `Workbook.CompleteOrder` and `Workbook.CancelOrder` run. Each of these is
  proved against the functions of `OrderTable`.

Modelling choices:

- Numeric cells hold a Java `double`, modelled as an exact `real`. The Order ID
  and the quantity are `int`s stored as `x as real`. The price is any `real`.
- A matching row is the source's test `cell != null && type == NUMERIC && value == orderId`.
  It is written `IdMatches(row, idCol, orderId)`.
- A row holds its cells at indices 0 .. |row|-1. A cell index past the end is a
  cell that does not exist (`getCell` returns null).
- The sheet's rows are contiguous. So `getPhysicalNumberOfRows()` is `|rows|`, and
  iterating over the sheet visits `rows` in order, header first.
- The console and the workbook file are not modelled. Each operation takes its
  inputs as parameters. It reports its outcome as a tag: `Added`/`DuplicateId`,
  `StatusSet`/`NotFound`, or `Found`/`Missing`.
- `addOrder` writes the new row at the fixed columns 0..5. Its duplicate check uses
  the column the header names "Order ID". So uniqueness after an insert is proved
  for the layout `createExcelFile` writes, where Order ID is column 0. With another
  header layout the new row's cell under "Order ID" would be some other field of
  the order.
- `completeOrder` and `cancelOrder` repeat the same loop in the source. Here both
  call one method, `Sheet.SetStatus`. A row whose Order ID matches but that has no
  status cell is skipped, and the scan goes on, as in the source.
  `LastStatusWriteWins` states that the two operations do not guard against each
  other.

## Model

| member | source | states |
|---|---|---|
| `Cells.CellText` | src/BakeryManagementSystem.java:221-234 | a string cell renders as its text, a boolean cell as "true" or "false", and a blank cell or a cell of any other type as "" |
| `Cells.CellTextEmpty` | src/BakeryManagementSystem.java:221-234 | the rendering is "" exactly for a blank cell, an other-type cell or an empty text cell |
| `OrderTable.FindColumnIndex` | src/BakeryManagementSystem.java:251-258 | result is the index of the first header cell whose text equals the name; it is -1 iff no header cell's text equals it |
| `OrderTable.Header` | src/BakeryManagementSystem.java:266-271 | the created header has the six column names in order; looking up "Order ID" gives column 0 and "Status" gives column 5 |
| `OrderTable.ColumnOf` | src/BakeryManagementSystem.java:207-208 | the column index resolved from the header lies inside the header row, and that header cell's text is the name |
| `OrderTable.FindOrderRow` | src/BakeryManagementSystem.java:210-216 | result is the first row whose Order ID cell exists, is numeric and equals the ID; None iff no row has such a cell |
| `OrderTable.IsOrderIdExist` | src/BakeryManagementSystem.java:206-219 | true iff some order row (index 1 or more) has a numeric Order ID cell equal to the ID; the header row never matches |
| `OrderTable.GetOrderDetails` | src/BakeryManagementSystem.java:125-137 | Missing iff the ID does not exist; otherwise the header and the first order row carrying the ID |
| `OrderTable.FindStatusRow` | src/BakeryManagementSystem.java:150-164 | result is the first row whose Order ID matches and whose status cell exists; a matching row without a status cell is passed over; None iff there is no such row |
| `OrderTable.WithStatus` | src/BakeryManagementSystem.java:150-163 | a status write keeps the row count |
| `OrderTable.StatusWriteTouchesOneCell` | src/BakeryManagementSystem.java:150-166 | a status write changes exactly the status cell of the first updatable row, which then holds the status; no row changes length; with no updatable row the table is unchanged |
| `OrderTable.StatusRowStable` | src/BakeryManagementSystem.java:150-163 | after a status write, the next status write finds the same row (Order ID and Status are different columns) |
| `OrderTable.LastStatusWriteWins` | src/BakeryManagementSystem.java:150-192 | completing then cancelling, or cancelling then completing, gives the table the second write alone gives |
| `OrderTable.StatusWriteIdempotent` | src/BakeryManagementSystem.java:150-163 | writing the same status twice gives the same table as writing it once |
| `OrderTable.StatusWriteKeepsIds` | src/BakeryManagementSystem.java:154-156 | a status write leaves every row's Order ID unchanged, so unique IDs stay unique |
| `OrderTable.StatusWriteKeepsHeader` | src/BakeryManagementSystem.java:150-163 | a status write never changes the text header row, so a following complete or cancel resolves the same columns |
| `OrderTable.NewOrderRow` | src/BakeryManagementSystem.java:104-110 | the appended row has six cells, the Order ID in column 0 and "Pending" in the Status column |
| `OrderTable.InsertKeepsIdsUnique` | src/BakeryManagementSystem.java:87-110 | appending an order whose ID does not exist keeps Order IDs unique |
| `OrderTable.AppendedOrderIsFound` | src/BakeryManagementSystem.java:104-110 | after the append, looking the ID up finds the new row at index equal to the old row count; it is reported with the unchanged header |
| `OrderTable.StatusWriteHitsAppendedOrder` | src/BakeryManagementSystem.java:150-163 | after the append, completing or cancelling that ID writes only the new row's status cell |
| `Bakery.LowercaseOrdersIsOrders` | src/BakeryManagementSystem.java:260 | the name "orders" equals "Orders" ignoring case but not exactly, so it is a name `Workbook.Valid` rules out beside "Orders" |
| `Bakery.Sheet.SetStatus` | src/BakeryManagementSystem.java:146-166 | the scan loop leaves the rows equal to `WithStatus` of the old rows; reports StatusSet iff an updatable row exists; NotFound leaves the rows unchanged |
| `Bakery.Workbook.CreateExcelFile` | src/BakeryManagementSystem.java:259-275 | an existing "Orders" sheet is returned with its map and rows unchanged; otherwise a fresh sheet is added under "Orders" with the header row as its only row |
| `Bakery.Workbook.AddOrder` | src/BakeryManagementSystem.java:79-117 | DuplicateId iff the ID already exists, and then nothing changes; otherwise exactly one row, the new order with status "Pending", is appended after the old rows; other sheets are untouched; unique IDs stay unique |
| `Bakery.Workbook.GetOrderDetails` | src/BakeryManagementSystem.java:119-138 | the result is the lookup `OrderTable.GetOrderDetails` of the sheet's rows: Missing iff no order row carries the ID, otherwise the header and the first matching row; the workbook is not modified |
| `Bakery.Workbook.CompleteOrder` | src/BakeryManagementSystem.java:140-167 | the sheet's rows become `WithStatus(.., "Completed")` of the old rows; StatusSet iff an updatable row exists; NotFound changes nothing; unique IDs stay unique; the header row is unchanged |
| `Bakery.Workbook.CancelOrder` | src/BakeryManagementSystem.java:169-196 | the same with "Cancelled", including the unchanged header row |
| `Bakery.SessionAdds` | src/BakeryManagementSystem.java:87-91 | on a fresh sheet the first add finds no such ID, and once the order is in, the ID is found |
| `Bakery.SessionCompletes` | src/BakeryManagementSystem.java:128-163 | completing the only order writes its status cell, and the lookup then finds it with status "Completed" |
| `Bakery.FirstOrder` | src/BakeryManagementSystem.java:79-117 | the first add on a fresh workbook is Added, and the workbook then holds only the "Orders" sheet, whose rows are the header and the new order |
| `Bakery.CompleteAndLookUp` | src/BakeryManagementSystem.java:119-167 | completing the one order of a header-plus-one-order sheet is StatusSet, and the lookup that follows finds that order with status "Completed" |
| `Bakery.Session` | src/BakeryManagementSystem.java:79-167 | on a fresh workbook: add is Added, repeating it is DuplicateId, complete is StatusSet, and the lookup returns the header and the row [id, name, items, quantity, price, "Completed"] |

## Left out

- Workbook file I/O (`loadExistingWorkbookOrCreateNew`, `saveWorkbookToFile` and the writes inside `addOrder`, `completeOrder` and `cancelOrder`): XLSX serialisation is done by a library that is not part of this model, so the save/load round trip is not stated.
- Console interaction (`main`'s menu loop, `Scanner` reads, `getIntInput`'s retry on malformed input, `System.exit`): the inputs are parameters of each operation.
- `printOrderDetails`: the printed lines are console output. `GetOrderDetails` returns the header and the matched row those lines are made from.
- `CellText`: numeric cells are excluded. Their rendering is Java's double-to-string conversion, which is not modelled.
- Floating point: a double is an exact real, so rounding of prices is not captured. Order IDs and quantities are Java 32-bit `int`s, which a double holds exactly, so storing and comparing them loses nothing.
- Integer width: the model's `orderId` and `quantity` are unbounded `int`s, where the source's are 32-bit (the console read refuses anything larger). Nothing depends on the width, because IDs and quantities are only stored and compared, never used in arithmetic.
- `OrderTable.FindColumnIndex`: requires every header cell to be text or blank. The source reads the string value of each cell only until the first match, and a non-text cell there throws. The model does not describe that exception.
- Bakery.Workbook.CreateExcelFile, Bakery.Workbook.AddOrder: the spreadsheet library finds a sheet by name ignoring case, while the model's map matches only the exact name "Orders". The two agree because `Workbook.Valid` excludes any other sheet whose name equals "Orders" ignoring case; workbooks loaded with such a sheet (say "orders" and no "Orders") are outside the model. The case folding is ASCII only, where the library folds every Unicode letter.
- OrderTable.WithStatus, Bakery.Sheet.SetStatus: a status cell that holds a formula (an `Other` cell of a hand-edited workbook) keeps its formula in the source, because the library's string write sets only the formula's cached result, so the details listing still renders it as "". The model turns that cell into a text cell holding the status. The program itself never writes formula cells.
- Library failure paths are preconditions, not modelled behaviour. They are: the "Orders" sheet missing before the first order for lookup, complete and cancel; a missing header row; a missing "Order ID" or "Status" column, which leads to `getCell(-1)`; and header cells that are not text.
- Rows with gaps inside them, and sheets whose rows are not contiguous, are not modelled. The program only writes contiguous rows. On a sheet with a gap, appending at `getPhysicalNumberOfRows()` would reuse an existing row index.
- Bakery.Workbook.AddOrder: the promise that unique Order IDs stay unique is stated only when the header puts Order ID in column 0. That is the layout `createExcelFile` writes. The new row is written at fixed columns, so under another header layout a different field of the new order would sit in the Order ID column.
- OrderTable.InsertKeepsIdsUnique: the same restriction to Order ID in column 0, for the same reason.

=== FILE: bakery.dfy ===
/** The bakery program's workbook and its "Orders" sheet as objects updated in
    place: the sheet is created on first use, orders are appended, and complete /
    cancel overwrite a status cell. Console prompts and file writes are left out;
    each operation takes its inputs as parameters and reports its outcome as a tag. */
module Bakery {
  import opened Cells
  import opened OrderTable

  const OrdersSheet: string := "Orders"

  /** What `addOrder` reports. */
  datatype AddOutcome = Added | DuplicateId

  /** What `completeOrder` and `cancelOrder` report. */
  datatype UpdateOutcome = StatusSet | NotFound

  /** `c` with an ASCII upper-case letter turned into lower case. */
  function LowerAscii(c: char): char {
    if 'A' <= c <= 'Z' then (c as int + 32) as char else c
  }

  /** The two sheet names are equal ignoring ASCII case. */
  predicate EqualsIgnoringCase(a: string, b: string) {
    |a| == |b| && forall i :: 0 <= i < |a| ==> LowerAscii(a[i]) == LowerAscii(b[i])
  }

  /** A sheet named "orders" is the "Orders" sheet to a lookup by name, so a
      valid workbook cannot hold it beside "Orders". */
  lemma LowercaseOrdersIsOrders()
    ensures EqualsIgnoringCase("orders", OrdersSheet) && "orders" != OrdersSheet
  {
    assert LowerAscii(OrdersSheet[0]) == 'o';
  }

  /** One sheet of the workbook: its rows, contiguous from row 0. */
  class Sheet {
    var rows: seq<Row>

    constructor ()
      ensures rows == []
    {
      rows := [];
    }

    /** The scan of `completeOrder` / `cancelOrder`: overwrite with `status` the
        status cell of the first row whose Order ID matches and whose status cell
        exists; report whether such a row was found. */
    method SetStatus(orderId: int, status: string) returns (o: UpdateOutcome)
      requires HasColumn(rows, OrderIdName) && HasColumn(rows, StatusName)
      modifies this
      ensures var idCol, stCol := ColumnOf(old(rows), OrderIdName), ColumnOf(old(rows), StatusName);
              (o == StatusSet <==> FindStatusRow(old(rows), idCol, stCol, orderId).Some?) &&
              rows == WithStatus(old(rows), idCol, stCol, orderId, status)
      ensures o == NotFound ==> rows == old(rows)
    {
      var idCol := ColumnOf(rows, OrderIdName);
      var stCol := ColumnOf(rows, StatusName);
      var i := 0;
      while i < |rows|
        invariant 0 <= i <= |rows|
        invariant rows == old(rows)
        invariant forall j :: 0 <= j < i ==> !Updatable(rows[j], idCol, stCol, orderId)
      {
        if IdMatches(rows[i], idCol, orderId) {
          if stCol < |rows[i]| {
            rows := rows[i := rows[i][stCol := Str(status)]];
            return StatusSet;
          }
        }
        i := i + 1;
      }
      return NotFound;
    }
  }

  /** The workbook: its sheets by name, each name naming its own sheet object.
      Sheets are looked up by name ignoring case, so a valid workbook has no sheet
      other than "Orders" whose name is "Orders" in another case. */
  class Workbook {
    var sheets: map<string, Sheet>

    ghost predicate Valid()
      reads this
    {
      (forall a, b :: a in sheets && b in sheets && a != b ==> sheets[a] != sheets[b]) &&
      (forall name :: name in sheets && name != OrdersSheet ==> !EqualsIgnoringCase(name, OrdersSheet))
    }

    constructor ()
      ensures Valid() && sheets == map[]
    {
      sheets := map[];
    }

    /** `createExcelFile`: the "Orders" sheet, created with the six-column header
        row when the workbook does not have it yet, returned as it is otherwise. */
    method CreateExcelFile() returns (sheet: Sheet)
      requires Valid()
      modifies this
      ensures Valid() && OrdersSheet in sheets && sheet == sheets[OrdersSheet]
      ensures OrdersSheet in old(sheets) ==> sheets == old(sheets) && sheet.rows == old(sheet.rows)
      ensures OrdersSheet !in old(sheets) ==>
                fresh(sheet) && sheets == old(sheets)[OrdersSheet := sheet] && sheet.rows == [Header()]
    {
      if OrdersSheet in sheets {
        sheet := sheets[OrdersSheet];
        return;
      }
      sheet := new Sheet();
      sheets := sheets[OrdersSheet := sheet];
      sheet.rows := [[]];
      for i := 0 to |Columns|
        invariant sheets == old(sheets)[OrdersSheet := sheet] && Valid()
        invariant |sheet.rows| == 1 && |sheet.rows[0]| == i
        invariant forall j :: 0 <= j < i ==> sheet.rows[0][j] == Str(Columns[j])
      {
        sheet.rows := [sheet.rows[0] + [Str(Columns[i])]];
      }
      assert sheet.rows[0] == Header();
    }

    /** `addOrder`: make sure the "Orders" sheet exists, refuse an Order ID that is
        already taken, otherwise append one row holding the order with status
        "Pending" right after the last row. */
    method AddOrder(customerName: string, orderId: int, items: string, quantity: int, price: real)
      returns (o: AddOutcome)
      requires Valid()
      requires OrdersSheet in sheets ==> HasColumn(sheets[OrdersSheet].rows, OrderIdName)
      modifies this, sheets.Values
      ensures Valid() && OrdersSheet in sheets
      ensures OrdersSheet in old(sheets) ==> sheets == old(sheets)
      ensures OrdersSheet !in old(sheets) ==>
                fresh(sheets[OrdersSheet]) && sheets == old(sheets)[OrdersSheet := sheets[OrdersSheet]]
      ensures var before := if OrdersSheet in old(sheets) then old(sheets[OrdersSheet].rows) else [Header()];
              HasColumn(before, OrderIdName) &&
              (o == DuplicateId <==> IsOrderIdExist(before, orderId)) &&
              sheets[OrdersSheet].rows ==
                if o == DuplicateId then before
                else before + [NewOrderRow(orderId, customerName, items, quantity, price)]
      ensures o == DuplicateId ==> OrdersSheet in old(sheets)
      ensures var before := if OrdersSheet in old(sheets) then old(sheets[OrdersSheet].rows) else [Header()];
              HasColumn(before, OrderIdName) && ColumnOf(before, OrderIdName) == 0 && UniqueIds(before, 0) ==>
                UniqueIds(sheets[OrdersSheet].rows, 0)
      ensures forall name :: name in old(sheets) && name != OrdersSheet ==> sheets[name].rows == old(sheets[name].rows)
    {
      var sheet := CreateExcelFile();
      if IsOrderIdExist(sheet.rows, orderId) {
        return DuplicateId;
      }
      if ColumnOf(sheet.rows, OrderIdName) == 0 && UniqueIds(sheet.rows, 0) {
        InsertKeepsIdsUnique(sheet.rows, orderId, customerName, items, quantity, price);
      }
      sheet.rows := sheet.rows + [NewOrderRow(orderId, customerName, items, quantity, price)];
      return Added;
    }

    /** `getOrderDetails`: the header and the first order row with this Order ID,
        or Missing; nothing is changed. */
    method GetOrderDetails(orderId: int) returns (d: Details)
      requires Valid() && OrdersSheet in sheets && HasColumn(sheets[OrdersSheet].rows, OrderIdName)
      ensures d == OrderTable.GetOrderDetails(sheets[OrdersSheet].rows, orderId)
    {
      d := OrderTable.GetOrderDetails(sheets[OrdersSheet].rows, orderId);
    }

    /** `completeOrder`: mark the order "Completed". */
    method CompleteOrder(orderId: int) returns (o: UpdateOutcome)
      requires Valid() && OrdersSheet in sheets
      requires HasColumn(sheets[OrdersSheet].rows, OrderIdName) && HasColumn(sheets[OrdersSheet].rows, StatusName)
      modifies sheets[OrdersSheet]
      ensures var before := old(sheets[OrdersSheet].rows);
              var idCol, stCol := ColumnOf(before, OrderIdName), ColumnOf(before, StatusName);
              (o == StatusSet <==> FindStatusRow(before, idCol, stCol, orderId).Some?) &&
              sheets[OrdersSheet].rows == WithStatus(before, idCol, stCol, orderId, Completed) &&
              (UniqueIds(before, idCol) ==> UniqueIds(sheets[OrdersSheet].rows, idCol))
      ensures o == NotFound ==> sheets[OrdersSheet].rows == old(sheets[OrdersSheet].rows)
      ensures sheets[OrdersSheet].rows[0] == old(sheets[OrdersSheet].rows[0])
    {
      ghost var before := sheets[OrdersSheet].rows;
      StatusWriteKeepsHeader(before, ColumnOf(before, OrderIdName), ColumnOf(before, StatusName), orderId, Completed);
      StatusWriteKeepsIds(before, ColumnOf(before, OrderIdName), ColumnOf(before, StatusName), orderId, Completed);
      o := sheets[OrdersSheet].SetStatus(orderId, Completed);
    }

    /** `cancelOrder`: mark the order "Cancelled"; a completed order is overwritten too. */
    method CancelOrder(orderId: int) returns (o: UpdateOutcome)
      requires Valid() && OrdersSheet in sheets
      requires HasColumn(sheets[OrdersSheet].rows, OrderIdName) && HasColumn(sheets[OrdersSheet].rows, StatusName)
      modifies sheets[OrdersSheet]
      ensures var before := old(sheets[OrdersSheet].rows);
              var idCol, stCol := ColumnOf(before, OrderIdName), ColumnOf(before, StatusName);
              (o == StatusSet <==> FindStatusRow(before, idCol, stCol, orderId).Some?) &&
              sheets[OrdersSheet].rows == WithStatus(before, idCol, stCol, orderId, Cancelled) &&
              (UniqueIds(before, idCol) ==> UniqueIds(sheets[OrdersSheet].rows, idCol))
      ensures o == NotFound ==> sheets[OrdersSheet].rows == old(sheets[OrdersSheet].rows)
      ensures sheets[OrdersSheet].rows[0] == old(sheets[OrdersSheet].rows[0])
    {
      ghost var before := sheets[OrdersSheet].rows;
      StatusWriteKeepsHeader(before, ColumnOf(before, OrderIdName), ColumnOf(before, StatusName), orderId, Cancelled);
      StatusWriteKeepsIds(before, ColumnOf(before, OrderIdName), ColumnOf(before, StatusName), orderId, Cancelled);
      o := sheets[OrdersSheet].SetStatus(orderId, Cancelled);
    }
  }

  /** The tables a session on a fresh workbook passes through: the header alone,
      then one order; the first add finds no such ID, the second finds it. */
  lemma SessionAdds(order: Row, orderId: int)
    requires IdMatches(order, 0, orderId) && |order| == |Columns|
    ensures !IsOrderIdExist([Header()], orderId)
    ensures HasColumn([Header(), order], OrderIdName) && ColumnOf([Header(), order], OrderIdName) == 0
    ensures HasColumn([Header(), order], StatusName) && ColumnOf([Header(), order], StatusName) == 5
    ensures IsOrderIdExist([Header(), order], orderId)
  {
    assert [Header()] + [order] == [Header(), order];
    AppendedOrderIsFound([Header()], order, orderId);
  }

  /** Completing the session's one order writes its status cell, and the lookup
      then finds the order with status "Completed". */
  lemma SessionCompletes(order: Row, orderId: int)
    requires IdMatches(order, 0, orderId) && |order| == |Columns|
    ensures WithStatus([Header(), order], 0, 5, orderId, Completed) == [Header(), order[5 := Str(Completed)]]
    ensures HasColumn([Header(), order[5 := Str(Completed)]], OrderIdName)
    ensures GetOrderDetails([Header(), order[5 := Str(Completed)]], orderId) == Found(Header(), order[5 := Str(Completed)])
  {
    assert [Header()] + [order] == [Header(), order];
    assert [Header()] + [order[5 := Str(Completed)]] == [Header(), order[5 := Str(Completed)]];
    StatusWriteHitsAppendedOrder([Header()], order, orderId, 5, Completed);
    AppendedOrderIsFound([Header()], order[5 := Str(Completed)], orderId);
  }

  /** A fresh workbook after its first order: the "Orders" sheet holds the header
      and that order. */
  method FirstOrder(orderId: int, customerName: string, items: string, quantity: int, price: real)
    returns (wb: Workbook, o: AddOutcome)
    ensures fresh(wb) && wb.Valid() && o == Added
    ensures OrdersSheet in wb.sheets && wb.sheets == map[OrdersSheet := wb.sheets[OrdersSheet]] && fresh(wb.sheets[OrdersSheet])
    ensures wb.sheets[OrdersSheet].rows == [Header(), NewOrderRow(orderId, customerName, items, quantity, price)]
  {
    wb := new Workbook();
    o := wb.AddOrder(customerName, orderId, items, quantity, price);
  }

  /** Completing the one order of a workbook and looking it up again. */
  method CompleteAndLookUp(wb: Workbook, ghost order: Row, orderId: int) returns (completed: UpdateOutcome, d: Details)
    requires IdMatches(order, 0, orderId) && |order| == |Columns|
    requires wb.Valid() && OrdersSheet in wb.sheets && wb.sheets[OrdersSheet].rows == [Header(), order]
    modifies wb.sheets[OrdersSheet]
    ensures completed == StatusSet && d == Found(Header(), order[5 := Str(Completed)])
  {
    SessionAdds(order, orderId);
    SessionCompletes(order, orderId);
    completed := wb.CompleteOrder(orderId);
    d := wb.GetOrderDetails(orderId);
  }

  /** A session on a fresh workbook: add an order, add it again, complete it and
      look it up. The second add is refused, and the lookup finds the order as
      entered with status "Completed". */
  method Session(orderId: int, customerName: string, items: string, quantity: int, price: real)
    returns (first: AddOutcome, second: AddOutcome, completed: UpdateOutcome, d: Details)
    ensures first == Added && second == DuplicateId && completed == StatusSet
    ensures d == Found(Header(), [Num(orderId as real), Str(customerName), Str(items), Num(quantity as real), Num(price), Str(Completed)])
  {
    ghost var order := NewOrderRow(orderId, customerName, items, quantity, price);
    SessionAdds(order, orderId);
    var wb;
    wb, first := FirstOrder(orderId, customerName, items, quantity, price);
    second := wb.AddOrder(customerName, orderId, items, quantity, price);
    completed, d := CompleteAndLookUp(wb, order, orderId);
  }
}

=== FILE: cells.dfy ===
/** Cells of the "Orders" sheet: the tagged values a spreadsheet cell can hold,
    and how the order-details listing renders them as text. */
module Cells {

  /** One cell. A numeric cell holds a Java double, modelled as an exact real;
      `Other` stands for the cell types the program never writes (formula, error). */
  datatype Cell = Num(value: real) | Str(text: string) | Bool(flag: bool) | Blank | Other

  /** A row holds its cells at column indices 0 .. |row|-1; an index past the end
      is a cell that does not exist. */
  type Row = seq<Cell>

  /** The cells whose string value can be read: text cells and blank cells. */
  predicate IsText(c: Cell) {
    c.Str? || c.Blank?
  }

  /** The text of a cell as `getCellValueAsString` renders it. Numeric cells are
      outside the model (their rendering is Java's double-to-string conversion).
      On text cells this is also the cell's string value. */
  function CellText(c: Cell): (s: string)
    requires !c.Num?
    ensures c.Str? ==> s == c.text
    ensures c.Bool? ==> s == (if c.flag then "true" else "false")
    ensures c.Blank? || c.Other? ==> s == ""
  {
    match c
    case Str(t) => t
    case Bool(b) => if b then "true" else "false"
    case Blank => ""
    case Other => ""
  }

  /** Rendering is lossy in exactly one way among booleans and text: a blank cell,
      a cell of another type and an empty text cell all render as "", and nothing
      else does. */
  lemma CellTextEmpty(c: Cell)
    requires !c.Num?
    ensures CellText(c) == "" <==> c == Blank || c == Other || c == Str("")
  {
    if c.Bool? {
      assert |CellText(c)| > 0;
    }
  }
}

=== FILE: order_table.dfy ===
/** The order table as a value: row 0 is the header of column names, every later
    row is one order. The read-only operations of the bakery program (column
    lookup, Order ID lookup, the details scan) are functions here, and the status
    write of complete/cancel is given as the function its loop is proved against. */
module OrderTable {
  import opened Cells

  datatype Option<T> = None | Some(value: T)

  const OrderIdName: string := "Order ID"
  const StatusName: string := "Status"
  const Pending: string := "Pending"
  const Completed: string := "Completed"
  const Cancelled: string := "Cancelled"

  /** The six column names of the "Orders" sheet, in order. */
  const Columns: seq<string> := [OrderIdName, "Customer Name", "Items", "Quantity", "Price", StatusName]

  /** Every cell of the row has a string value (the header scan reads each one). */
  predicate TextRow(row: Row) {
    forall j :: 0 <= j < |row| ==> IsText(row[j])
  }

  /** `findColumnIndex`: the index of the first header cell whose text is `name`,
      or -1 when no header cell has that text. */
  function FindColumnIndex(header: Row, name: string): (r: int)
    requires TextRow(header)
    ensures -1 <= r < |header|
    ensures r == -1 <==> forall j :: 0 <= j < |header| ==> CellText(header[j]) != name
    ensures r >= 0 ==> CellText(header[r]) == name
    ensures r >= 0 ==> forall j :: 0 <= j < r ==> CellText(header[j]) != name
  {
    if |header| == 0 then -1
    else if CellText(header[0]) == name then 0
    else
      var k := FindColumnIndex(header[1..], name);
      if k == -1 then -1 else k + 1
  }

  /** The header row `createExcelFile` writes. Looking up its Order ID and Status
      columns finds the first and the last column. */
  function Header(): (h: Row)
    ensures |h| == |Columns| && TextRow(h)
    ensures forall j :: 0 <= j < |Columns| ==> h[j] == Str(Columns[j])
    ensures FindColumnIndex(h, OrderIdName) == 0
    ensures FindColumnIndex(h, StatusName) == |Columns| - 1
  {
    var h := [Str(OrderIdName), Str("Customer Name"), Str("Items"), Str("Quantity"), Str("Price"), Str(StatusName)];
    assert CellText(h[0]) == OrderIdName;
    assert FindColumnIndex(h[5..], StatusName) == 0;
    assert h[4..][1..] == h[5..] && FindColumnIndex(h[4..], StatusName) == 1;
    assert h[3..][1..] == h[4..] && FindColumnIndex(h[3..], StatusName) == 2;
    assert h[2..][1..] == h[3..] && FindColumnIndex(h[2..], StatusName) == 3;
    assert h[1..][1..] == h[2..] && FindColumnIndex(h[1..], StatusName) == 4;
    h
  }

  /** The table has a readable header row holding a column called `name`. */
  predicate HasColumn(rows: seq<Row>, name: string) {
    |rows| > 0 && TextRow(rows[0]) && FindColumnIndex(rows[0], name) >= 0
  }

  /** The index of column `name` as the header gives it. */
  function ColumnOf(rows: seq<Row>, name: string): (col: nat)
    requires HasColumn(rows, name)
    ensures col < |rows[0]| && CellText(rows[0][col]) == name
  {
    FindColumnIndex(rows[0], name)
  }

  /** The numeric value in column `col` of the row, if that cell exists and is numeric. */
  function IdOf(row: Row, col: nat): Option<real> {
    if col < |row| && row[col].Num? then Some(row[col].value) else None
  }

  /** The row's Order ID cell exists, is numeric and equals `orderId`. */
  predicate IdMatches(row: Row, idCol: nat, orderId: int) {
    IdOf(row, idCol) == Some(orderId as real)
  }

  /** The scan shared by `isOrderIdExist` and `getOrderDetails`: the first row,
      header included, whose Order ID is `orderId`. */
  function FindOrderRow(rows: seq<Row>, idCol: nat, orderId: int): (r: Option<nat>)
    ensures r.Some? ==> r.value < |rows| && IdMatches(rows[r.value], idCol, orderId)
    ensures r.Some? ==> forall j :: 0 <= j < r.value ==> !IdMatches(rows[j], idCol, orderId)
    ensures r.None? <==> forall j :: 0 <= j < |rows| ==> !IdMatches(rows[j], idCol, orderId)
  {
    if |rows| == 0 then None
    else if IdMatches(rows[0], idCol, orderId) then Some(0)
    else
      match FindOrderRow(rows[1..], idCol, orderId)
      case None => None
      case Some(k) => Some(k + 1)
  }

  /** `isOrderIdExist`: some order row carries `orderId` in the Order ID column.
      The header row never does, since its Order ID cell is text. */
  function IsOrderIdExist(rows: seq<Row>, orderId: int): (b: bool)
    requires HasColumn(rows, OrderIdName)
    ensures b <==> exists i :: 1 <= i < |rows| && IdMatches(rows[i], ColumnOf(rows, OrderIdName), orderId)
  {
    var idCol := ColumnOf(rows, OrderIdName);
    assert !IdMatches(rows[0], idCol, orderId);
    FindOrderRow(rows, idCol, orderId).Some?
  }

  /** What `getOrderDetails` finds: the header and the matching order row, or nothing. */
  datatype Details = Found(header: Row, order: Row) | Missing

  /** The lookup of `getOrderDetails`: the first order row whose Order ID is
      `orderId`, paired with the header its cells are labelled by. */
  function GetOrderDetails(rows: seq<Row>, orderId: int): (d: Details)
    requires HasColumn(rows, OrderIdName)
    ensures d.Missing? <==> !IsOrderIdExist(rows, orderId)
    ensures d.Found? ==> d.header == rows[0]
    ensures d.Found? ==> exists k :: 1 <= k < |rows| && d.order == rows[k]
                                    && IdMatches(rows[k], ColumnOf(rows, OrderIdName), orderId)
                                    && forall j :: 0 <= j < k ==> !IdMatches(rows[j], ColumnOf(rows, OrderIdName), orderId)
  {
    var idCol := ColumnOf(rows, OrderIdName);
    assert !IdMatches(rows[0], idCol, orderId);
    match FindOrderRow(rows, idCol, orderId)
    case None => Missing
    case Some(k) => Found(rows[0], rows[k])
  }

  /** A row complete/cancel would write to: its Order ID matches and its status cell exists. */
  predicate Updatable(row: Row, idCol: nat, stCol: nat, orderId: int) {
    IdMatches(row, idCol, orderId) && stCol < |row|
  }

  /** The row complete/cancel writes to: the first updatable row. A matching row
      without a status cell is passed over and the scan goes on. */
  function FindStatusRow(rows: seq<Row>, idCol: nat, stCol: nat, orderId: int): (r: Option<nat>)
    ensures r.Some? ==> r.value < |rows| && Updatable(rows[r.value], idCol, stCol, orderId)
    ensures r.Some? ==> forall j :: 0 <= j < r.value ==> !Updatable(rows[j], idCol, stCol, orderId)
    ensures r.None? <==> forall j :: 0 <= j < |rows| ==> !Updatable(rows[j], idCol, stCol, orderId)
  {
    if |rows| == 0 then None
    else if Updatable(rows[0], idCol, stCol, orderId) then Some(0)
    else
      match FindStatusRow(rows[1..], idCol, stCol, orderId)
      case None => None
      case Some(k) => Some(k + 1)
  }

  /** The table after complete/cancel writes `status` into the status cell of the
      first updatable row; with no such row, the table as it was. */
  function WithStatus(rows: seq<Row>, idCol: nat, stCol: nat, orderId: int, status: string): (t: seq<Row>)
    ensures |t| == |rows|
  {
    match FindStatusRow(rows, idCol, stCol, orderId)
    case None => rows
    case Some(k) => rows[k := rows[k][stCol := Str(status)]]
  }

  /** A status write touches exactly one cell, the status cell of the first
      updatable row, which then holds `status`; no row grows or shrinks; with no
      updatable row the table is unchanged. */
  lemma StatusWriteTouchesOneCell(rows: seq<Row>, idCol: nat, stCol: nat, orderId: int, status: string)
    ensures var t := WithStatus(rows, idCol, stCol, orderId, status);
            |t| == |rows| && forall i :: 0 <= i < |rows| ==> |t[i]| == |rows[i]|
    ensures FindStatusRow(rows, idCol, stCol, orderId).None? ==> WithStatus(rows, idCol, stCol, orderId, status) == rows
    ensures FindStatusRow(rows, idCol, stCol, orderId).Some? ==>
              var t := WithStatus(rows, idCol, stCol, orderId, status);
              var k := FindStatusRow(rows, idCol, stCol, orderId).value;
              t[k][stCol] == Str(status) &&
              forall i, j :: 0 <= i < |rows| && 0 <= j < |rows[i]| && (i, j) != (k, stCol) ==> t[i][j] == rows[i][j]
  {
  }

  /** A status write never moves the row the next status write finds. */
  lemma StatusRowStable(rows: seq<Row>, idCol: nat, stCol: nat, orderId: int, status: string)
    requires idCol != stCol
    ensures FindStatusRow(WithStatus(rows, idCol, stCol, orderId, status), idCol, stCol, orderId)
         == FindStatusRow(rows, idCol, stCol, orderId)
  {
    var t := WithStatus(rows, idCol, stCol, orderId, status);
    forall i | 0 <= i < |rows|
      ensures IdOf(t[i], idCol) == IdOf(rows[i], idCol)
      ensures Updatable(t[i], idCol, stCol, orderId) == Updatable(rows[i], idCol, stCol, orderId)
    {
      if idCol < |rows[i]| {
        assert t[i][idCol] == rows[i][idCol];
      }
    }
    var before := FindStatusRow(rows, idCol, stCol, orderId);
    var after := FindStatusRow(t, idCol, stCol, orderId);
    if before.Some? {
      var k := before.value;
      assert Updatable(t[k], idCol, stCol, orderId);
      var m := after.value;
      assert Updatable(rows[m], idCol, stCol, orderId);
    }
  }

  /** Complete and cancel do not guard against each other: the later status write
      wins, whatever the earlier one wrote. */
  lemma LastStatusWriteWins(rows: seq<Row>, idCol: nat, stCol: nat, orderId: int, first: string, second: string)
    requires idCol != stCol
    ensures WithStatus(WithStatus(rows, idCol, stCol, orderId, first), idCol, stCol, orderId, second)
         == WithStatus(rows, idCol, stCol, orderId, second)
  {
    StatusRowStable(rows, idCol, stCol, orderId, first);
    var t := WithStatus(rows, idCol, stCol, orderId, first);
    match FindStatusRow(rows, idCol, stCol, orderId)
    case None =>
    case Some(k) =>
      assert t[k][stCol := Str(second)] == rows[k][stCol := Str(second)];
  }

  /** Writing the same status twice gives the table one write gives. */
  lemma StatusWriteIdempotent(rows: seq<Row>, idCol: nat, stCol: nat, orderId: int, status: string)
    requires idCol != stCol
    ensures WithStatus(WithStatus(rows, idCol, stCol, orderId, status), idCol, stCol, orderId, status)
         == WithStatus(rows, idCol, stCol, orderId, status)
  {
    LastStatusWriteWins(rows, idCol, stCol, orderId, status, status);
  }

  /** No two rows carry the same numeric value in the Order ID column. */
  predicate UniqueIds(rows: seq<Row>, idCol: nat) {
    forall i, j :: 0 <= i < j < |rows| && IdOf(rows[i], idCol).Some? ==> IdOf(rows[i], idCol) != IdOf(rows[j], idCol)
  }

  /** A status write leaves every Order ID where it was, so it keeps IDs unique. */
  lemma StatusWriteKeepsIds(rows: seq<Row>, idCol: nat, stCol: nat, orderId: int, status: string)
    requires idCol != stCol
    ensures var t := WithStatus(rows, idCol, stCol, orderId, status);
            forall i :: 0 <= i < |rows| ==> IdOf(t[i], idCol) == IdOf(rows[i], idCol)
    ensures UniqueIds(rows, idCol) ==> UniqueIds(WithStatus(rows, idCol, stCol, orderId, status), idCol)
  {
    var t := WithStatus(rows, idCol, stCol, orderId, status);
    forall i | 0 <= i < |rows|
      ensures IdOf(t[i], idCol) == IdOf(rows[i], idCol)
    {
      if idCol < |rows[i]| {
        assert t[i][idCol] == rows[i][idCol];
      }
    }
  }

  /** A status write never lands on the text header row, so the header, and with
      it every column the next operation resolves, stays as it was. */
  lemma StatusWriteKeepsHeader(rows: seq<Row>, idCol: nat, stCol: nat, orderId: int, status: string)
    requires |rows| > 0 && TextRow(rows[0])
    ensures WithStatus(rows, idCol, stCol, orderId, status)[0] == rows[0]
  {
    assert !IdMatches(rows[0], idCol, orderId);
  }

  /** The row `addOrder` appends: the six cells in header order, status "Pending". */
  function NewOrderRow(orderId: int, customerName: string, items: string, quantity: int, price: real): (row: Row)
    ensures |row| == |Columns|
    ensures IdOf(row, 0) == Some(orderId as real)
    ensures row[|Columns| - 1] == Str(Pending)
  {
    [Num(orderId as real), Str(customerName), Str(items), Num(quantity as real), Num(price), Str(Pending)]
  }

  /** Appending a new order whose ID is not yet taken keeps Order IDs unique,
      when the Order ID column is the first one (where `addOrder` writes the ID). */
  lemma InsertKeepsIdsUnique(rows: seq<Row>, orderId: int, customerName: string, items: string, quantity: int, price: real)
    requires HasColumn(rows, OrderIdName) && ColumnOf(rows, OrderIdName) == 0
    requires UniqueIds(rows, 0)
    requires !IsOrderIdExist(rows, orderId)
    ensures UniqueIds(rows + [NewOrderRow(orderId, customerName, items, quantity, price)], 0)
  {
    var t := rows + [NewOrderRow(orderId, customerName, items, quantity, price)];
    forall i, j | 0 <= i < j < |t| && IdOf(t[i], 0).Some?
      ensures IdOf(t[i], 0) != IdOf(t[j], 0)
    {
      if j == |rows| {
        assert t[i] == rows[i];
        if i == 0 {
          assert rows[0][0] == Str(OrderIdName);
        } else {
          assert !IdMatches(rows[i], 0, orderId);
        }
      }
    }
  }

  /** After a successful insert, looking the new ID up finds the appended row:
      no earlier row, header included, carries that ID. */
  lemma AppendedOrderIsFound(rows: seq<Row>, row: Row, orderId: int)
    requires HasColumn(rows, OrderIdName) && ColumnOf(rows, OrderIdName) == 0
    requires !IsOrderIdExist(rows, orderId)
    requires IdMatches(row, 0, orderId)
    ensures HasColumn(rows + [row], OrderIdName) && ColumnOf(rows + [row], OrderIdName) == 0
    ensures FindOrderRow(rows + [row], 0, orderId) == Some(|rows|)
    ensures IsOrderIdExist(rows + [row], orderId)
    ensures GetOrderDetails(rows + [row], orderId) == Found(rows[0], row)
  {
    var t := rows + [row];
    assert t[0] == rows[0];
    assert forall j :: 0 <= j < |rows| ==> t[j] == rows[j];
    assert !IdMatches(rows[0], 0, orderId);
    assert IdMatches(t[|rows|], 0, orderId);
  }

  /** After a successful insert, completing or cancelling that order writes the
      status cell of the appended row and nothing else. */
  lemma StatusWriteHitsAppendedOrder(rows: seq<Row>, row: Row, orderId: int, stCol: nat, status: string)
    requires HasColumn(rows, OrderIdName) && ColumnOf(rows, OrderIdName) == 0
    requires !IsOrderIdExist(rows, orderId)
    requires IdMatches(row, 0, orderId) && stCol < |row|
    ensures WithStatus(rows + [row], 0, stCol, orderId, status) == rows + [row[stCol := Str(status)]]
  {
    var t := rows + [row];
    assert forall j :: 0 <= j < |rows| ==> t[j] == rows[j];
    assert !IdMatches(rows[0], 0, orderId);
    assert Updatable(t[|rows|], 0, stCol, orderId);
    assert FindStatusRow(t, 0, stCol, orderId) == Some(|rows|);
  }
}
